=== FILE: README.md ===
# Electricity meter pulse counter: syncer and pulse detection

This project models the counting and upload core of an ESP8266 sketch that
reads an electricity meter. A light sensor watches the meter's pulse LED. In
France one pulse is one watt-hour. The sketch counts each pulse twice: on a
small OLED screen, and in an 8-bit counter of the `Syncer` class.

`Syncer` posts that counter to a collector over a hand-written HTTP/1.1
request. The request body is `"<name>;<count>"`. The syncer then busy-waits a
bounded number of polls for an answer. It copies the answer into a 310-byte
buffer and calls the exchange a success when the buffer's C string contains
`HTTP/1.1 200`.

The model is functional:

- The `Syncer` object is an immutable `State`. Each of its members is a pure
  function from the state to the new state.
- The `WiFiClient` is an oracle (`WiFi.Client`). It holds fixed traces of what
  `available()`, `read()` and `connect()` will answer, counts the calls made
  so far, and records what was written and how often the connection was
  stopped.
- The sketch's globals (`luxCycle`, the screen's count, the syncer) form a
  `PulseDetector.Meter`.

Modules:

- `CStrings`: `strlen`, the C-string view of a buffer, `strstr`, and
  `memset(b, 0, strlen(b))`.
- `Decimal`: the `%d` text of a number and the reading that recovers it.
- `WiFi`: the client oracle and the run lengths of its poll answers.
- `Syncer`: the class, member by member, following `src/Utils/Syncer.cpp`.
- `ReceiveLoops`: the read loop of `receive()` as written against the
  bounded one.
- `SyncerProperties`: lemmas that relate several calls.
- `PulseDetector`: `detectPulseChange()` and `onResetValue()` of `src/main.cpp`,
  with their lemmas.

Integer widths are explicit:

- `uint8_t` and `uint16_t` are the subset types `U8` and `U16`, and their
  increments wrap modulo 256 and 65536.
- The `int8_t` result is returned from `sync()` as a `uint8_t`, so the
  errors -2 and -1 come back as 254 and 255.
- The sensor reading is stored into a `uint8_t`, which keeps its low byte.

## Behaviour of the source kept as written

These are modelled exactly as the code does them, and lemmas pin them down:

- `sync()` increments `_whCounter` on every call, enabled or not, on top of
  the `increaseWhCounter()` done for each pulse (`Syncer.Sync`,
  `PulseDetector.RunWhileIdle`).
- `send()` sets the result to success on every empty poll of its wait loop.
  It zeroes the counter when the result is success after the wait. So the
  count is dropped exactly when the first poll after the write found no data
  yet and a later poll of the 1001 found some, before any answer has been
  read. An answer already waiting at the first poll keeps the count, and so
  does a wait whose 1001 polls are all empty, which ends in a send error
  (`SyncerProperties.SendOutcome`).
- `receive()` starts by checking the result of `send()`: a send error is
  returned as it is (`SyncerProperties.SyncSendTimeout`). Otherwise it calls
  `resetRequest()`, which discards the SUCCESS or NONE left by `send()`, so
  only the receive decides the outcome (`SyncerProperties.SyncAfterSend`).
- `resetRequest()` clears each buffer only up to its first NUL. Characters
  behind an embedded NUL survive. A later answer that reaches them joins them
  into the C string that `strstr` searches. A stale `HTTP/1.1 200` at offset k
  turns any answer of exactly k bytes without NUL into a success
  (`SyncerProperties.StaleMarkerCounts`).
- Nothing in the sketch calls `addCycle()`. A fresh syncer therefore never
  becomes enabled, and calls of `detectPulseChange()` never use the client
  (`PulseDetector.MainNeverSyncs`). Only the `syncer.connect()` of `setup()`
  (`src/main.cpp:142`) does.
- The sketch calls `syncer.increaseWhCounter()` (`src/main.cpp:64`), but the
  class declares no such member. It is modelled as `_whCounter++`.
- The header declares `reconnect()` as returning `int8_t`, while the
  definition returns `bool`. The model answers a boolean.
- The header does not declare `resetRequest()`. The model follows its
  definition.
- The `Content-Length` header counts the body without the newline that the
  request appends after it (`SyncerProperties.RequestContentLength`).
- The request separates its lines with `\n`, not `\r\n`.
- The reset button clears the screen's count but not the syncer's counter
  (`PulseDetector.OnResetValue`).

## Model

| member | source | states |
|---|---|---|
| Syncer.Fresh | src/Utils/Syncer.h:23-30 | a new syncer has all counters at 0, is not enabled, has result NONE, and its three buffers hold only NULs |
| Syncer.ResultIsNotAnError | src/Utils/Syncer.cpp:77-79 | the result passes exactly when it is NONE or SUCCESS |
| Syncer.ResultByte | src/Utils/Syncer.cpp:137 | the `int8_t` result returned as `uint8_t`: non-negative codes unchanged, negative codes shifted by 256 |
| Syncer.AddCycle | src/Utils/Syncer.cpp:151-153 | the cycle counter gains one, wraps from 65535 to 0, and nothing else changes |
| Syncer.Reset | src/Utils/Syncer.cpp:140-143 | answers true, zeroes the counter, and changes nothing else |
| Syncer.IncreaseWhCounter | src/main.cpp:64 | the 8-bit counter gains one, wrapping at 256, and nothing else changes |
| Syncer.ResetRequest | src/Utils/Syncer.cpp:81-93 | counters and result are reset and the counter is kept; the C strings become empty; every answer slot before the first NUL becomes NUL and the slots from it on are kept; a clean buffer becomes all NUL |
| Syncer.BuildData | src/Utils/Syncer.cpp:14 | the body is the name, `;`, then digits that read back as the counter, with no leading zero, and exactly `0` when the counter is 0; it is 2 to 4 characters longer than the name and fits `_data[16]` when the name has at most 11 characters |
| Syncer.SendWait | src/Utils/Syncer.cpp:29-38 | with k empty polls before the first one with data: the wait stops after k+1 polls with SUCCESS (or the old result when k = 0); when all 1001 polls are empty it stops the client and gives a send error |
| Syncer.Send | src/Utils/Syncer.cpp:11-50 | writes exactly the request for the current counter; never gives a receive error; zeroes the counter exactly when the result is SUCCESS; gives a send error and stops the client after 1001 empty polls |
| Syncer.ReceiveLoopAsWritten | src/Utils/Syncer.cpp:56-64 | reads the whole run of polls with data, up to 1001; gives a receive error and stops the client when it reaches 1001; it stores past the 310-byte buffer exactly when it reads more than 310 bytes; when the answer ends before the last slot, what it stores is stated by `ReceiveLoops.ReceiveLoopsAgree`, and when it reaches the last slot, by `ReceiveLoops.AsWrittenFillsLastSlot` |
| Syncer.ReceiveLoop | src/Utils/Syncer.cpp:56-64 | corrected loop: stores the run of offered bytes in order from the current index, at most up to the last slot; gives a receive error and stops the client exactly when a byte is offered with no room left |
| Syncer.Receive | src/Utils/Syncer.cpp:52-75 | an error result is left alone; otherwise the client moves past the run of polls with data (capped at the buffer) and the poll that ended it, the index and byte count both equal the bytes stored, and those bytes are written over the cleared buffer; the result is a receive error exactly when the answer overflows, and SUCCESS exactly when it fits and the buffer's C string contains `HTTP/1.1 200` |
| Syncer.ConnectClient | src/Utils/Syncer.cpp:101-103 | the connection state becomes the next connect outcome, and one connect is counted |
| Syncer.Reconnect | src/Utils/Syncer.cpp:105-112 | a connected client is untouched and the answer is true; otherwise the client is stopped once and connected afresh |
| Syncer.Sync | src/Utils/Syncer.cpp:114-138 | the counter is always incremented; when `Syncer.EnableToSync` is false nothing else changes; when it is true the cycle counter restarts; a failed connect gives NONE and 0 |
| ReceiveLoops.ReceiveLoopsAgree | src/Utils/Syncer.cpp:56-64 | when a poll without data comes before the buffer is full, the loop as written reads, stores and reports exactly what the corrected loop does, and does not overrun |
| ReceiveLoops.AsWrittenFillsLastSlot | src/Utils/Syncer.cpp:56-64 | when every poll up to the last slot of `_response` reports data, the loop as written stores the byte read at that poll in the last slot, where the terminating NUL belongs |
| ReceiveLoops.AsWrittenPastEndKeeps | src/Utils/Syncer.cpp:56-64 | once the index is past the array, the loop as written leaves the buffer unchanged |
| CStrings.ClearToStrlen | src/Utils/Syncer.cpp:84-86 | the C string becomes empty, every slot before the first NUL becomes NUL, the slots from the first NUL on are kept, and the result is all NUL exactly when the buffer was clean |
| CStrings.Strstr | src/Utils/Syncer.cpp:66 | reports a match exactly when the needle occurs, and then the first occurrence |
| CStrings.OverwriteJoins | src/Utils/Syncer.cpp:57 | NUL-free bytes written just before NUL-free stale text join it into the C string |
| Decimal.ToNatFromNat | src/Utils/Syncer.cpp:14 | the `%d` text of a number reads back as that number |
| WiFi.DataRunIsBusyPrefix | src/Utils/Syncer.cpp:56 | the run of polls with data is the longest prefix of busy polls, and it fills the limit exactly when every poll in the limit is busy |
| WiFi.SilenceRunIsQuietPrefix | src/Utils/Syncer.cpp:29 | the run of empty polls is the longest prefix of empty polls, and it fills the limit exactly when every poll in the limit is empty |
| SyncerProperties.ResultCodesOrdered | src/Utils/Syncer.h:44-47 | the codes are -2 < -1 < 0 < 1, only NONE and SUCCESS pass, and the errors are returned as 254 and 255 |
| SyncerProperties.ResetRequestIdempotent | src/Utils/Syncer.cpp:81-93 | a second `resetRequest()`, as `sync()` followed by `send()` performs, changes nothing |
| SyncerProperties.ResetThenCount | src/Utils/Syncer.cpp:140-143 | after `reset()`, n increments leave the counter at n modulo 256 |
| SyncerProperties.AddCyclesCount | src/Utils/Syncer.cpp:151-153 | n calls to `addCycle()` below the wrap add n and change nothing else |
| SyncerProperties.AddCyclesEnable | src/Utils/Syncer.cpp:147-153 | after a reset, `Syncer.EnableToSync` holds exactly once 100 cycles have been added |
| SyncerProperties.IncreaseWhCounterWraps | src/Utils/Syncer.h:24 | n increments of the 8-bit counter add n modulo 256 to what `Syncer.GetWhCounter` (`src/Utils/Syncer.cpp:157-159`) answers, and change nothing else |
| SyncerProperties.WhCounterFullTurn | src/Utils/Syncer.h:24 | 256 increments give back the same syncer |
| SyncerProperties.RequestContentLength | src/Utils/Syncer.cpp:15-25 | the request `Syncer.BuildRequest` formats ends with the body and one newline after an empty line, and the `Content-Length` header before it reads back as the body's length |
| SyncerProperties.SendOutcome | src/Utils/Syncer.cpp:29-49 | if all 1001 polls are empty: send error, client stopped, counter kept; otherwise SUCCESS with the counter zeroed exactly when the first poll was empty, and NONE with the counter kept when it was not |
| SyncerProperties.ReceiveOutcome | src/Utils/Syncer.cpp:52-67 | reads the busy prefix of the polls (fewer than 310 bytes); receive error exactly when the first 310 polls all report data; SUCCESS exactly when they do not and the C string holds the status line |
| SyncerProperties.ReceiveCleanBuffer | src/Utils/Syncer.cpp:66-67 | on a clean buffer and an answer whose stored bytes hold no NUL, the searched C string is exactly the bytes read, so SUCCESS means they contain the status line |
| SyncerProperties.StaleMarkerCounts | src/Utils/Syncer.cpp:86 | a status line left behind an embedded NUL at offset k makes any NUL-free k-byte answer a success |
| SyncerProperties.StaleMarkerExample | src/Utils/Syncer.cpp:86 | a buffer whose C string is `x` can hide the status line, and clearing to `strlen` keeps it |
| SyncerProperties.ReceiveLoopAsWrittenOverruns | src/Utils/Syncer.cpp:56-64 | from an empty buffer, the loop as written stores past the array exactly when the first 311 polls all report data |
| SyncerProperties.ReceiveLoopKeepsTerminator | src/Utils/Syncer.h:27 | the corrected loop never writes the last slot, so the terminating NUL survives |
| SyncerProperties.SyncSendTimeout | src/Utils/Syncer.cpp:114-125 | when all 1001 polls after the write are empty: the request was written, nothing is read, the client is stopped, the incremented counter is kept and 255 is returned |
| SyncerProperties.SyncAfterSend | src/Utils/Syncer.cpp:114-125 | when an answer arrives: the request was written; the counter is zeroed exactly when the first poll was empty; the result is never a send error; a receive error leaves the client stopped; SUCCESS exactly when the buffer's C string holds the status line |
| SyncerProperties.SyncAfterSendReads | src/Utils/Syncer.cpp:29-64 | when an answer arrives, the sync leaves the client past the empty polls of the wait, the poll that ended it, the run of polls with data (capped at the buffer) and the poll that ended that run, if any, having read only the bytes the receive stored |
| SyncerProperties.SendThenReceiveReads | src/Utils/Syncer.cpp:29-64 | the same for a send followed by a receive on any syncer |
| PulseDetector.LuxByte | src/main.cpp:53 | the stored value is the reading's low byte: it differs from the reading by a multiple of 256, and a reading below 256 is kept as it is |
| PulseDetector.DetectPulseChange | src/main.cpp:51-73 | when `PulseDetector.Fires` (the test of `src/main.cpp:58`) holds, the call restarts the debounce and adds one to the screen, otherwise the 8-bit debounce counter advances; the syncer and client are those of exactly one `sync()` run after the pulse, if any, was added to the syncer counter |
| PulseDetector.DetectWhileIdle | src/main.cpp:58-72 | while the syncer is not enabled, one call leaves the client untouched and adds 2 to the syncer counter on a pulse and 1 otherwise, modulo 256 |
| PulseDetector.OnResetValue | src/main.cpp:85-88 | the debounce and the screen's count are zeroed, and the syncer and client are untouched |
| PulseDetector.RunWhileIdle | src/main.cpp:51-73 | over any readings while not enabled: the client is never used, the screen gains the number of pulses, and the syncer counter gains calls plus pulses modulo 256 |
| PulseDetector.MainNeverSyncs | src/main.cpp:51-73 | from a fresh syncer, any sequence of calls of `detectPulseChange()` leaves the client untouched and the result NONE |
| PulseDetector.DebounceSkips | src/main.cpp:58-59 | while the debounce counter is at most 11, readings only advance it, whatever their light |
| PulseDetector.DebounceWindow | src/main.cpp:58-59 | after a pulse, the next 11 readings never count, and the 12th counts exactly when its light is above 10 |
| PulseDetector.PulsesSpaced | src/main.cpp:58-59 | pulses are at least 12 calls apart: n readings give at most (n + the debounce already served) / 12 pulses |
| PulseDetector.ResetThenDebounce | src/main.cpp:85-88 | after the button, 11 calls while not enabled leave the screen at 0, and the syncer counter is not reset |
| PulseDetector.TruncatedReadingMissed | src/main.cpp:53 | a bright reading from 256 to 266 is taken as dark, because only its low byte is kept |

## Left out

- LEDs and `delay`: the LED writes and the delays of `sync()` and `detectPulseChange()` change no modelled state.
- Debug output: the commented-out `Serial` prints are not modelled.
- The screen (`src/Utils/Oled.cpp`): only `whIncrease()` and `whReset()` are modelled. The type of `_whCount` is declared in `Oled.h`, which is not part of this model, so the screen's count is an unbounded `nat`.
- `setup()`, `loop()` and joining the Wi-Fi network are not modelled. The client's connection state and answers come from its oracle.
- Sockets and the network: `connect()` to `SYNC_ENDPOINT_HOST` and `SYNC_ENDPOINT_PORT` is one entry of the connect trace. The host and port are not modelled.
- The `WiFiClient` allocated by the constructor is a parameter of the operations.
- `Settings.h` is not part of this model. `SYNC_NAME`, `SYNC_ENDPOINT_URI` and `SYNC_ENDPOINT_HOST` are the fields of `Config`, each a text without NUL, as a `%s` conversion copies it.
- The connection state: `connected()` answers only what the syncer's own `stop()` and `connect()` calls set. A peer closing the connection between two calls of `sync()` is not modelled.
- Syncer.ResetRequest: the `true` that `resetRequest()` returns is never used by its callers and is not modelled.
- Interrupts: `onResetValue()` runs between two calls of `detectPulseChange()`. An interrupt arriving in the middle of a call is not modelled.
- Syncer.BuildData: an overflow of `_data[16]` by a long `SYNC_NAME` is not modelled. The lemma states only that the body fits when the name has at most 11 characters.
- Syncer.Send: an overflow of `_request[128]` by `sprintf` is not modelled. The request is kept whole.
- The `%d` conversion of the `size_t` returned by `strlen` is taken to print its value.
- A `read()` with no byte left returns -1, which the model casts to `char` as U+00FF.
- Syncer.Receive: it uses the corrected read loop (see Findings), so its receive error comes when a 310th byte is offered, not after 1001 bytes. The loop as written is kept as `Syncer.ReceiveLoopAsWritten`, which gives the error after 1001 bytes.

## Findings

| source | as written | input that shows it | evidently intended | confidence | as-written member | corrected member |
|---|---|---|---|---|---|---|
| src/Utils/Syncer.cpp:56-64 | the read loop stores `_response[_responseI++]` for up to 1001 bytes, but `_response` has 310 slots (`src/Utils/Syncer.h:27`) | a first receive whose first 311 polls all report data: the 311th byte is stored at index 310, past the array; an answer of exactly 310 bytes stays inside the array but overwrites the terminating NUL at index 309 | stop before the last slot, keeping the terminating NUL that `strstr` relies on, and report a receive error | not executed | Syncer.ReceiveLoopAsWritten | Syncer.ReceiveLoop |

In the loop as written:

- from an empty buffer, the overrun happens exactly when the first 311 polls
  all report data (`SyncerProperties.ReceiveLoopAsWrittenOverruns`);
- an answer that reaches the last slot has a byte stored there, over the
  terminating NUL (`ReceiveLoops.AsWrittenFillsLastSlot`). Any later byte
  lands past the array and leaves the buffer as it is
  (`ReceiveLoops.AsWrittenPastEndKeeps`).

In the corrected loop:

- a byte offered when only the last slot is left is not read;
- the client is stopped and the result is a receive error;
- `SyncerProperties.ReceiveLoopKeepsTerminator` proves that the terminating
  NUL survives;
- as long as the answer ends before the buffer is full, both loops do the
  same (`ReceiveLoops.ReceiveLoopsAgree`).

=== FILE: cstrings.dfy ===
/**
 The NUL-terminated character buffers of the C runtime, as far as the syncer
 uses them: `strlen`, the C-string view of a buffer, `strstr`, and the
 `memset(buf, 0, strlen(buf))` idiom that clears a buffer only up to its
 first NUL. Each `char` of a buffer stands for one byte.
 */
module CStrings {

  const NUL: char := '\0'

  /** The result of `strstr`: the NULL pointer, or the offset of the first match. */
  datatype Found = NotFound | FoundAt(index: nat)

  /** `needle` occurs in `hay` starting at offset `i`. */
  predicate OccursAt(hay: seq<char>, needle: seq<char>, i: nat) {
    i + |needle| <= |hay| && hay[i..i + |needle|] == needle
  }

  /** `needle` occurs somewhere in `hay`. */
  predicate Contains(hay: seq<char>, needle: seq<char>) {
    exists i: nat :: i <= |hay| && OccursAt(hay, needle, i)
  }

  /**
   `strlen` of a buffer: the number of characters before the first NUL. A
   buffer that holds no NUL at all has its whole length (C would read on past
   the end of the array; the model stops at the last slot).
   */
  function CStrLen(b: seq<char>): (n: nat)
    ensures n <= |b|
    ensures forall i :: 0 <= i < n ==> b[i] != NUL
    ensures n < |b| ==> b[n] == NUL
  {
    if |b| == 0 || b[0] == NUL then 0 else 1 + CStrLen(b[1..])
  }

  /** The string a C function sees when it is handed the buffer `b`. */
  function CStr(b: seq<char>): (s: seq<char>)
    ensures |s| <= |b|
    ensures NUL !in s
    ensures |s| < |b| ==> b == s + [NUL] + b[|s| + 1..]
  {
    b[..CStrLen(b)]
  }

  /**
   A buffer is clean when every slot after its C string is NUL, i.e. it holds
   no stale characters hidden behind an embedded terminator.
   */
  predicate Clean(b: seq<char>) {
    forall i :: CStrLen(b) <= i < |b| ==> b[i] == NUL
  }

  /** Every slot of `b` is NUL. */
  predicate AllNul(b: seq<char>) {
    forall i :: 0 <= i < |b| ==> b[i] == NUL
  }

  /**
   `memset(b, 0, strlen(b))`: only the characters of the C string are
   zeroed; whatever lies behind the first NUL is kept.
   */
  function ClearToStrlen(b: seq<char>): (r: seq<char>)
    ensures |r| == |b|
    ensures CStr(r) == []
    ensures forall i :: 0 <= i < CStrLen(b) ==> r[i] == NUL
    ensures forall i :: CStrLen(b) <= i < |b| ==> r[i] == b[i]
    ensures Clean(b) <==> AllNul(r)
  {
    var n := CStrLen(b);
    seq(|b|, i requires 0 <= i < |b| => if i < n then NUL else b[i])
  }

  /** `b2` is `b` with `bytes` written over it from offset `at` on. */
  predicate Overwritten(b2: seq<char>, b: seq<char>, at: nat, bytes: seq<char>) {
    && |b2| == |b|
    && forall i :: 0 <= i < |b| ==>
         b2[i] == (if at <= i < at + |bytes| then bytes[i - at] else b[i])
  }

  /** `strstr(hay, needle)` searching from offset `from` on. */
  function StrstrFrom(hay: seq<char>, needle: seq<char>, from: nat): (r: Found)
    requires from <= |hay| + 1
    decreases |hay| + 1 - from
    ensures r.FoundAt? ==> from <= r.index && OccursAt(hay, needle, r.index)
    ensures r.FoundAt? ==> forall j :: from <= j < r.index ==> !OccursAt(hay, needle, j)
    ensures r.NotFound? ==> forall j: nat :: from <= j ==> !OccursAt(hay, needle, j)
  {
    if from + |needle| > |hay| then NotFound
    else if hay[from..from + |needle|] == needle then FoundAt(from)
    else StrstrFrom(hay, needle, from + 1)
  }

  /** `strstr(hay, needle)`: the first occurrence of `needle` in `hay`, if any. */
  function Strstr(hay: seq<char>, needle: seq<char>): (r: Found)
    ensures r.FoundAt? <==> Contains(hay, needle)
    ensures r.FoundAt? ==> OccursAt(hay, needle, r.index)
    ensures r.FoundAt? ==> forall j :: 0 <= j < r.index ==> !OccursAt(hay, needle, j)
  {
    StrstrFrom(hay, needle, 0)
  }

  /** The C string of a buffer ends at the first NUL; what follows does not matter. */
  lemma CStrLenOfTerminated(b: seq<char>, s: seq<char>)
    requires NUL !in s
    requires |s| < |b|
    requires b[..|s|] == s && b[|s|] == NUL
    ensures CStrLen(b) == |s|
    ensures CStr(b) == s
  {
  }

  /** Writing one character and then the rest is writing both. */
  lemma OverwrittenStep(b2: seq<char>, b: seq<char>, at: nat, x: char, rest: seq<char>)
    requires at < |b|
    requires Overwritten(b2, b[at := x], at + 1, rest)
    ensures Overwritten(b2, b, at, [x] + rest)
  {
  }

  /**
   Writing NUL-free `bytes` at the start of an all-NUL buffer, with room to
   spare, leaves exactly those bytes as its C string.
   */
  lemma OverwriteClean(b2: seq<char>, b: seq<char>, bytes: seq<char>)
    requires AllNul(b) && Overwritten(b2, b, 0, bytes)
    requires |bytes| < |b| && NUL !in bytes
    ensures CStr(b2) == bytes
  {
    assert b2[..|bytes|] == bytes;
    CStrLenOfTerminated(b2, bytes);
  }

  /**
   Writing NUL-free `bytes` at the start of a buffer that holds NUL-free
   `stale` text right after them joins the two: the C string then contains
   `stale`.
   */
  lemma OverwriteJoins(b2: seq<char>, b: seq<char>, bytes: seq<char>, stale: seq<char>)
    requires Overwritten(b2, b, 0, bytes)
    requires |bytes| + |stale| <= |b|
    requires b[|bytes|..|bytes| + |stale|] == stale
    requires NUL !in bytes && NUL !in stale
    ensures Contains(CStr(b2), stale)
  {
    var k := |bytes|;
    var m := k + |stale|;
    forall i | 0 <= i < m
      ensures b2[i] != NUL
    {
      if i < k {
        assert b2[i] == bytes[i];
      } else {
        assert b2[i] == b[i] == stale[i - k];
      }
    }
    assert m <= CStrLen(b2);
    assert CStr(b2)[k..m] == b2[k..m] == stale;
    assert OccursAt(CStr(b2), stale, k);
  }
}

=== FILE: decimal.dfy ===
/**
 Decimal text of a non-negative integer, as `sprintf("%d", n)` writes it,
 together with the reading that recovers the number from its digits.
 */
module Decimal {

  predicate IsDigit(c: char) {
    '0' <= c <= '9'
  }

  predicate AllDigits(s: seq<char>) {
    forall i :: 0 <= i < |s| ==> IsDigit(s[i])
  }

  function DigitChar(d: nat): (c: char)
    requires d < 10
    ensures IsDigit(c)
  {
    ((('0' as int) + d) as char)
  }

  function DigitValue(c: char): (d: nat)
    requires IsDigit(c)
    ensures d < 10
  {
    (c as int) - ('0' as int)
  }

  /** The text `%d` produces for `n`: no sign, no leading zero, at least one digit. */
  function FromNat(n: nat): (s: seq<char>)
    ensures 1 <= |s|
    ensures AllDigits(s)
    ensures s[0] == '0' ==> n == 0
    ensures n < 10 <==> |s| == 1
    decreases n
  {
    if n < 10 then [DigitChar(n)] else FromNat(n / 10) + [DigitChar(n % 10)]
  }

  /** The number a string of decimal digits denotes. */
  function ToNat(s: seq<char>): nat
    requires AllDigits(s)
    decreases |s|
  {
    if |s| == 0 then 0 else 10 * ToNat(s[..|s| - 1]) + DigitValue(s[|s| - 1])
  }

  /** Reading back the text `%d` wrote gives the number again. */
  lemma {:induction false} ToNatFromNat(n: nat)
    ensures ToNat(FromNat(n)) == n
    decreases n
  {
    var s := FromNat(n);
    if n >= 10 {
      ToNatFromNat(n / 10);
      assert s[..|s| - 1] == FromNat(n / 10);
    }
  }

  /** At most three digits are written for an 8-bit value. */
  lemma {:induction false} FromNatLength(n: nat)
    ensures n < 1000 ==> |FromNat(n)| <= 3
    ensures n >= 100 ==> |FromNat(n)| >= 3
  {
    if n >= 10 {
      FromNatLength(n / 10);
    }
  }
}

=== FILE: pulse_detector.dfy ===
/**
 The main loop of the meter reader: every call samples the light sensor that
 watches the meter's pulse LED, counts a pulse when the light is bright after
 a debounce of more than ten calls, and then gives the syncer its turn. A
 push button resets the on-screen count.

 The sensor reading, the display's pulse count and the syncer with its client
 form one `Meter`; each entry point is a pure function on it. The pulse LED,
 the 50 ms delay and the screen refresh are left out.
 */
module PulseDetector {
  import opened WiFi
  import opened Syncer

  /** A pulse needs more than this many calls since the last one. */
  const LUX_DEBOUNCE_CYCLE: U8 := 10
  /** A pulse needs a light level above this. */
  const LUX_OFFSET: U8 := 10

  /** The globals of the sketch that take part in counting. */
  datatype Meter = Meter(
    luxCycle: U8,        // calls since the last pulse, as a uint8_t
    displayCount: nat,   // the count the screen shows
    syncer: State,
    client: Client
  )

  /** The reading of `analogRead` stored into a `uint8_t`: only its low byte is kept. */
  function LuxByte(reading: nat): (lux: U8)
    ensures reading < 256 ==> lux == reading
    ensures (reading - lux) % 256 == 0
  {
    reading % 256
  }

  /** The test `luxCycle++ > LUX_DEBOUNCE_CYCLE && currentLux > LUX_OFFSET` on the value before the increment. */
  predicate Fires(luxCycle: U8, lux: U8) {
    luxCycle > LUX_DEBOUNCE_CYCLE && lux > LUX_OFFSET
  }

  /**
   `detectPulseChange()`: sample the sensor, count a pulse on the screen and
   in the syncer when it fires (restarting the debounce), otherwise advance the
   8-bit debounce counter; then call `sync()` in either case.
   */
  function DetectPulseChange(cfg: Config, m: Meter, reading: nat): (r: Meter)
    ensures Fires(m.luxCycle, LuxByte(reading)) ==>
              r.luxCycle == 0 && r.displayCount == m.displayCount + 1
    ensures !Fires(m.luxCycle, LuxByte(reading)) ==>
              r.luxCycle == Inc8(m.luxCycle) && r.displayCount == m.displayCount
    ensures var step := Sync(cfg, if Fires(m.luxCycle, LuxByte(reading)) then IncreaseWhCounter(m.syncer) else m.syncer, m.client);
            r.syncer == step.syncer && r.client == step.client
  {
    var fires := Fires(m.luxCycle, LuxByte(reading));
    var syncer := if fires then IncreaseWhCounter(m.syncer) else m.syncer;
    var step := Sync(cfg, syncer, m.client);
    Meter(if fires then 0 else Inc8(m.luxCycle),
          if fires then m.displayCount + 1 else m.displayCount,
          step.syncer, step.client)
  }

  /**
   One call while the syncer is not enabled: the client is untouched and the
   syncer's counter gains one for the pulse, if any, and one from `sync()`.
   */
  lemma DetectWhileIdle(cfg: Config, m: Meter, reading: nat)
    requires !EnableToSync(m.syncer)
    ensures var r := DetectPulseChange(cfg, m, reading);
            var counted := if Fires(m.luxCycle, LuxByte(reading)) then 2 else 1;
            && r.client == m.client
            && r.syncer == m.syncer.(whCounter := (m.syncer.whCounter + counted) % 256)
  {
  }

  /**
   `onResetValue()`, the button's interrupt: restart the debounce and clear
   the screen's count. The syncer's counter is not touched.
   */
  function OnResetValue(m: Meter): (r: Meter)
    ensures r.luxCycle == 0 && r.displayCount == 0
    ensures r.syncer == m.syncer && r.client == m.client
  {
    m.(luxCycle := 0, displayCount := 0)
  }

  /** `detectPulseChange()` called once per reading, in order. */
  function Run(cfg: Config, m: Meter, readings: seq<nat>): Meter
    decreases |readings|
  {
    if |readings| == 0 then m
    else Run(cfg, DetectPulseChange(cfg, m, readings[0]), readings[1..])
  }

  /** The debounce counter after the readings, from `luxCycle` on. */
  function LuxAfter(luxCycle: U8, readings: seq<nat>): U8
    decreases |readings|
  {
    if |readings| == 0 then luxCycle
    else if Fires(luxCycle, LuxByte(readings[0])) then LuxAfter(0, readings[1..])
    else LuxAfter(Inc8(luxCycle), readings[1..])
  }

  /** How many of the readings count as pulses, from `luxCycle` on. */
  function Pulses(luxCycle: U8, readings: seq<nat>): nat
    decreases |readings|
  {
    if |readings| == 0 then 0
    else if Fires(luxCycle, LuxByte(readings[0])) then 1 + Pulses(0, readings[1..])
    else Pulses(Inc8(luxCycle), readings[1..])
  }

  /**
   While the syncer is not yet enabled, the calls only count: the client is
   never used, the screen gains one per pulse, and the 8-bit syncer counter
   gains one per call (from `sync()`) plus one per pulse, modulo 256.
   */
  lemma {:induction false} RunWhileIdle(cfg: Config, m: Meter, readings: seq<nat>)
    requires !EnableToSync(m.syncer)
    ensures var r := Run(cfg, m, readings);
            var pulses := Pulses(m.luxCycle, readings);
            && r.client == m.client
            && r.luxCycle == LuxAfter(m.luxCycle, readings)
            && r.displayCount == m.displayCount + pulses
            && r.syncer == m.syncer.(whCounter := (m.syncer.whCounter + |readings| + pulses) % 256)
    decreases |readings|
  {
    if |readings| > 0 {
      var fires := Fires(m.luxCycle, LuxByte(readings[0]));
      var m1 := DetectPulseChange(cfg, m, readings[0]);
      DetectWhileIdle(cfg, m, readings[0]);
      var rest := readings[1..];
      RunWhileIdle(cfg, m1, rest);
      var counted := if fires then 2 else 1;
      assert Pulses(m.luxCycle, readings) == counted - 1 + Pulses(m1.luxCycle, rest);
      WrapAdd(m.syncer.whCounter + counted, |rest| + Pulses(m1.luxCycle, rest));
    }
  }

  /** Adding after a wrap-around is adding before it. */
  lemma WrapAdd(a: nat, b: nat)
    ensures (a % 256 + b) % 256 == (a + b) % 256
  {
  }

  /**
   `addCycle()` is never called by the sketch, so from a fresh syncer it never
   becomes enabled: calls of `detectPulseChange()` never use the client and
   never send anything.
   */
  lemma MainNeverSyncs(cfg: Config, c: Client, readings: seq<nat>)
    ensures Run(cfg, Meter(0, 0, Fresh(), c), readings).client == c
    ensures Run(cfg, Meter(0, 0, Fresh(), c), readings).syncer.result == None
  {
    RunWhileIdle(cfg, Meter(0, 0, Fresh(), c), readings);
  }

  /**
   During the debounce nothing counts: from a counter of `luxCycle`, the first
   k readings, as long as the counter stays at most `LUX_DEBOUNCE_CYCLE + 1`,
   only advance the counter, whatever light they report.
   */
  lemma {:induction false} DebounceSkips(luxCycle: U8, readings: seq<nat>, k: nat)
    requires k <= |readings| && luxCycle + k <= LUX_DEBOUNCE_CYCLE + 1
    ensures Pulses(luxCycle, readings) == Pulses(luxCycle + k, readings[k..])
    ensures LuxAfter(luxCycle, readings) == LuxAfter(luxCycle + k, readings[k..])
    decreases k
  {
    if k > 0 {
      DebounceSkips(luxCycle + 1, readings[1..], k - 1);
      assert readings[1..][k - 1..] == readings[k..];
    }
  }

  /**
   After a pulse or a reset the counter is 0: the next eleven readings never
   count, and the twelfth counts exactly when its light is above the offset.
   */
  lemma DebounceWindow(readings: seq<nat>)
    requires |readings| == LUX_DEBOUNCE_CYCLE + 2
    ensures Pulses(0, readings[..LUX_DEBOUNCE_CYCLE + 1]) == 0
    ensures Pulses(0, readings) == if LuxByte(readings[LUX_DEBOUNCE_CYCLE + 1]) > LUX_OFFSET then 1 else 0
  {
    var quiet := readings[..LUX_DEBOUNCE_CYCLE + 1];
    DebounceSkips(0, quiet, LUX_DEBOUNCE_CYCLE + 1);
    DebounceSkips(0, readings, LUX_DEBOUNCE_CYCLE + 1);
  }

  /** The part of a debounce already served: at most `LUX_DEBOUNCE_CYCLE + 1` calls. */
  function Credit(luxCycle: U8): nat {
    if luxCycle > LUX_DEBOUNCE_CYCLE then LUX_DEBOUNCE_CYCLE + 1 else luxCycle
  }

  /**
   Pulses are at least twelve calls apart: n readings count at most
   (n + the debounce already served) / 12 pulses. The counter wrapping to 0
   after 255 dark calls only delays the next pulse.
   */
  lemma {:induction false} PulsesSpaced(luxCycle: U8, readings: seq<nat>)
    ensures (LUX_DEBOUNCE_CYCLE + 2) * Pulses(luxCycle, readings) <= |readings| + Credit(luxCycle)
    decreases |readings|
  {
    if |readings| > 0 {
      if Fires(luxCycle, LuxByte(readings[0])) {
        PulsesSpaced(0, readings[1..]);
      } else {
        PulsesSpaced(Inc8(luxCycle), readings[1..]);
      }
    }
  }

  /**
   The button clears the screen but not the count still to be uploaded, and
   eleven further calls cannot bring a pulse onto the cleared screen.
   */
  lemma ResetThenDebounce(cfg: Config, m: Meter, readings: seq<nat>)
    requires !EnableToSync(m.syncer)
    requires |readings| <= LUX_DEBOUNCE_CYCLE + 1
    ensures var r := Run(cfg, OnResetValue(m), readings);
            && r.displayCount == 0
            && r.syncer.whCounter == (m.syncer.whCounter + |readings|) % 256
  {
    RunWhileIdle(cfg, OnResetValue(m), readings);
    DebounceSkips(0, readings, |readings|);
  }

  /** Only the low byte of the reading counts: a bright reading of 256 to 266 is taken for darkness. */
  lemma TruncatedReadingMissed(reading: nat)
    requires 256 <= reading <= 256 + LUX_OFFSET
    ensures !Fires(LUX_DEBOUNCE_CYCLE + 1, LuxByte(reading))
    ensures Fires(LUX_DEBOUNCE_CYCLE + 1, LuxByte(reading - 256 + 1 + LUX_OFFSET))
  {
  }
}

=== FILE: receive_loops.dfy ===
/**
 The two readings of the read loop of `receive()` side by side: the loop as
 written, which counts bytes up to `WAITING_CYCLE` and stores them wherever
 `responseI` points, and the loop bounded by the 310-byte buffer.
 */
module ReceiveLoops {
  import opened WiFi
  import opened Syncer

  /**
   When the answer ends (a poll without data) before the buffer is full, the
   receive loop as written and the bounded one read, store and report the
   same, and the loop as written does not overrun.
   */
  lemma {:induction false} ReceiveLoopsAgree(s: State, c: Client)
    requires s.responseI == s.waitingCount < RESPONSE_SIZE
    requires s.responseI + DataRun(c.answers, c.polls, RESPONSE_SIZE - s.responseI) < RESPONSE_SIZE
    ensures ReceiveLoopAsWritten(s, c) == (ReceiveLoop(s, c).0, ReceiveLoop(s, c).1, false)
    decreases RESPONSE_SIZE - s.responseI
  {
    if NextAnswer(c) == 0 {
      ReceiveLoopsStop(s, c);
    } else {
      var s1 := s.(response := s.response[s.responseI := ByteAt(c.stream, c.bytesRead)],
                   responseI := s.responseI + 1, waitingCount := s.waitingCount + 1);
      var c1 := c.(polls := c.polls + 1, bytesRead := c.bytesRead + 1);
      ReceiveLoopStores(s, c);
      ReceiveLoopAsWrittenStores(s, c);
      assert s1.responseI + DataRun(c1.answers, c1.polls, RESPONSE_SIZE - s1.responseI) < RESPONSE_SIZE;
      ReceiveLoopsAgree(s1, c1);
    }
  }

  /** A poll without data ends both loops at once, with only that poll spent. */
  lemma ReceiveLoopsStop(s: State, c: Client)
    requires s.responseI == s.waitingCount < RESPONSE_SIZE && NextAnswer(c) == 0
    ensures ReceiveLoopAsWritten(s, c) == (s, c.(polls := c.polls + 1), false)
    ensures ReceiveLoop(s, c) == (s, c.(polls := c.polls + 1))
  {
  }

  /**
   Once `responseI` has passed the array, the loop as written stores nothing
   more in it: every later byte lands past the end.
   */
  lemma {:induction false} AsWrittenPastEndKeeps(s: State, c: Client)
    requires s.responseI == s.waitingCount <= WAITING_CYCLE && s.responseI >= RESPONSE_SIZE
    ensures ReceiveLoopAsWritten(s, c).0.response == s.response
    decreases WAITING_CYCLE - s.waitingCount
  {
    if NextAnswer(c) != 0 && s.waitingCount + 1 <= WAITING_CYCLE {
      AsWrittenPastEndKeeps(s.(responseI := s.responseI + 1, waitingCount := s.waitingCount + 1),
                            c.(polls := c.polls + 1, bytesRead := c.bytesRead + 1));
    }
  }

  /**
   When every poll up to the last slot reports data, the loop as written
   stores a read byte in the last slot, the one the terminating NUL should
   keep: the byte offered at the poll that reaches it.
   */
  lemma {:induction false} AsWrittenFillsLastSlot(s: State, c: Client)
    requires s.responseI == s.waitingCount < RESPONSE_SIZE
    requires DataRun(c.answers, c.polls, RESPONSE_SIZE - s.responseI) == RESPONSE_SIZE - s.responseI
    ensures ReceiveLoopAsWritten(s, c).0.response[RESPONSE_SIZE - 1]
         == ByteAt(c.stream, c.bytesRead + RESPONSE_SIZE - 1 - s.responseI)
    decreases RESPONSE_SIZE - s.responseI
  {
    var s1 := s.(response := s.response[s.responseI := ByteAt(c.stream, c.bytesRead)],
                 responseI := s.responseI + 1, waitingCount := s.waitingCount + 1);
    var c1 := c.(polls := c.polls + 1, bytesRead := c.bytesRead + 1);
    assert NextAnswer(c) != 0;
    ReceiveLoopAsWrittenStores(s, c);
    if s.responseI == RESPONSE_SIZE - 1 {
      AsWrittenPastEndKeeps(s1, c1);
    } else {
      AsWrittenFillsLastSlot(s1, c1);
    }
  }

  /** One byte read and stored by the bounded loop. */
  lemma ReceiveLoopStores(s: State, c: Client)
    requires s.responseI == s.waitingCount < RESPONSE_SIZE - 1 && NextAnswer(c) != 0
    ensures ReceiveLoop(s, c)
         == ReceiveLoop(s.(response := s.response[s.responseI := ByteAt(c.stream, c.bytesRead)],
                           responseI := s.responseI + 1, waitingCount := s.waitingCount + 1),
                        c.(polls := c.polls + 1, bytesRead := c.bytesRead + 1))
  {
  }

  /** One byte read and stored, in bounds, by the loop as written. */
  lemma ReceiveLoopAsWrittenStores(s: State, c: Client)
    requires s.responseI == s.waitingCount < RESPONSE_SIZE && NextAnswer(c) != 0
    ensures ReceiveLoopAsWritten(s, c)
         == ReceiveLoopAsWritten(s.(response := s.response[s.responseI := ByteAt(c.stream, c.bytesRead)],
                                    responseI := s.responseI + 1, waitingCount := s.waitingCount + 1),
                                 c.(polls := c.polls + 1, bytesRead := c.bytesRead + 1))
  {
  }
}

=== FILE: syncer.dfy ===
/**
 The `Syncer` class: a cycle-gated state machine that posts the 8-bit pulse
 counter to the collector as `"<name>;<count>"` over a hand-written HTTP/1.1
 request, busy-waits a bounded number of polls for an answer, copies the answer
 into a fixed 310-byte buffer and classifies it by looking for the status line
 `HTTP/1.1 200`.

 The object is an immutable `State`; every member of the class becomes a pure
 function from the state (and the `WiFi.Client` oracle) to the new state.
 The LED writes and `delay` calls are left out.
 */
module Syncer {
  import opened CStrings
  import opened Decimal
  import opened WiFi

  /** `uint8_t` and `uint16_t`. */
  type U8 = x: int | 0 <= x < 256
  type U16 = x: int | 0 <= x < 65536

  /** Sync attempts wait for this many cycles. */
  const CYCLE: U16 := 100
  /** Bound on the polls of the send wait and on the bytes of one receive. */
  const WAITING_CYCLE: U16 := 1000

  /** Capacities of the `_data` and `_response` arrays. */
  const DATA_SIZE: nat := 16
  const RESPONSE_SIZE: nat := 310

  /** The status line whose presence makes an answer a success. */
  const SUCCESS_MARKER: seq<char> := "HTTP/1.1 200"

  /** The `int8_t` result codes. */
  datatype SyncResult = ErrorReceive | ErrorSend | None | Success {
    function Code(): int {
      match this
      case ErrorReceive => -2
      case ErrorSend => -1
      case None => 0
      case Success => 1
    }
  }

  type ResponseBuffer = b: seq<char> | |b| == RESPONSE_SIZE witness seq(RESPONSE_SIZE, _ => NUL)

  /** Text a `%s` conversion copies whole: it holds no NUL. */
  type CText = s: seq<char> | NUL !in s

  /** The build-time settings the requests are made of (their text is not part of this model). */
  datatype Config = Config(name: CText, uri: CText, host: CText)

  /**
   The fields of a `Syncer`. `request` and `data` are the C strings held in the
   `_request` and `_data` arrays; `response` is the whole `_response` array,
   since characters behind its first NUL survive a reset.
   */
  datatype State = State(
    cycleCounter: U16,
    whCounter: U8,
    request: seq<char>,
    data: seq<char>,
    response: ResponseBuffer,
    responseI: U16,
    waitingCount: U16,
    result: SyncResult
  )

  /** What `sync()` returns: its `uint8_t` result and the new object and client. */
  datatype Step = Step(ret: U8, syncer: State, client: Client)

  /** The fields an exchange with the client leaves alone. */
  predicate SameCounters(s: State, t: State) {
    && s.cycleCounter == t.cycleCounter && s.whCounter == t.whCounter
    && s.request == t.request && s.data == t.data
  }

  /** The last slot of the answer buffer still holds the terminating NUL. */
  predicate TerminatorKept(b: ResponseBuffer) {
    b[RESPONSE_SIZE - 1] == NUL
  }

  /** A freshly constructed `Syncer`: the member initialisers. */
  function Fresh(): (s: State)
    ensures !EnableToSync(s)
    ensures s.result == None && s.whCounter == 0
    ensures s.cycleCounter == 0 && s.responseI == 0 && s.waitingCount == 0
    ensures AllNul(s.response) && Clean(s.response) && TerminatorKept(s.response)
    ensures CStr(s.response) == [] && s.request == [] && s.data == []
  {
    State(0, 0, [], [], seq(RESPONSE_SIZE, _ => NUL), 0, 0, None)
  }

  /** `x++` on a `uint8_t`. */
  function Inc8(x: U8): (r: U8)
    ensures x < 255 ==> r == x + 1
    ensures x == 255 ==> r == 0
  {
    (x + 1) % 256
  }

  /** `resultIsNotAnError()`: the result code is at least `RESULT_NONE`. */
  function ResultIsNotAnError(r: SyncResult): (ok: bool)
    ensures ok <==> r == None || r == Success
  {
    r.Code() >= None.Code()
  }

  /** The `int8_t` result converted to the `uint8_t` that `sync()` returns. */
  function ResultByte(r: SyncResult): (b: U8)
    ensures 0 <= r.Code() ==> b == r.Code()
    ensures r.Code() < 0 ==> b == r.Code() + 256
  {
    r.Code() % 256
  }

  /** `enableToSync()`. */
  predicate EnableToSync(s: State) {
    s.cycleCounter >= CYCLE
  }

  /** `addCycle()`: `_cycleCounter++` on a `uint16_t`. */
  function AddCycle(s: State): (r: State)
    ensures s.cycleCounter < 65535 ==> r.cycleCounter == s.cycleCounter + 1
    ensures s.cycleCounter == 65535 ==> r.cycleCounter == 0
    ensures r == s.(cycleCounter := r.cycleCounter)
  {
    s.(cycleCounter := (s.cycleCounter + 1) % 65536)
  }

  /** `reset()`: forget the pulses counted so far; always answers true. */
  function Reset(s: State): (r: (bool, State))
    ensures r.0
    ensures r.1.whCounter == 0
    ensures r.1 == s.(whCounter := r.1.whCounter)
  {
    (true, s.(whCounter := 0))
  }

  /** `getWhCounter()`. */
  function GetWhCounter(s: State): U8 {
    s.whCounter
  }

  /**
   The `increaseWhCounter()` the main sketch calls on every pulse. The class
   declares no such member; it is taken to be `_whCounter++`.
   */
  function IncreaseWhCounter(s: State): (r: State)
    ensures r.whCounter == Inc8(s.whCounter)
    ensures r == s.(whCounter := r.whCounter)
  {
    s.(whCounter := Inc8(s.whCounter))
  }

  /**
   `resetRequest()`: a new attempt starts. The counters and the result go back
   to their initial values; the three arrays are cleared only up to their first
   NUL; `_whCounter` is kept.
   */
  function ResetRequest(s: State): (r: State)
    ensures r.cycleCounter == 0 && r.responseI == 0 && r.waitingCount == 0
    ensures r.result == None && r.whCounter == s.whCounter
    ensures r.request == [] && r.data == [] && CStr(r.response) == []
    ensures forall i :: 0 <= i < CStrLen(s.response) ==> r.response[i] == NUL
    ensures forall i :: CStrLen(s.response) <= i < RESPONSE_SIZE ==> r.response[i] == s.response[i]
    ensures Clean(s.response) ==> AllNul(r.response)
    ensures TerminatorKept(s.response) ==> TerminatorKept(r.response)
  {
    State(0, s.whCounter, [], [], ClearToStrlen(s.response), 0, 0, None)
  }

  /** The body `"%s;%d"` of name and counter. */
  function BuildData(cfg: Config, whCounter: U8): (d: seq<char>)
    ensures |cfg.name| + 2 <= |d| <= |cfg.name| + 4
    ensures d[..|cfg.name|] == cfg.name && d[|cfg.name|] == ';'
    ensures AllDigits(d[|cfg.name| + 1..]) && ToNat(d[|cfg.name| + 1..]) == whCounter
    ensures d[|cfg.name| + 1] == '0' ==> whCounter == 0 && |d| == |cfg.name| + 2
    ensures |cfg.name| <= DATA_SIZE - 5 ==> |d| < DATA_SIZE
  {
    var digits := FromNat(whCounter);
    FromNatLength(whCounter);
    ToNatFromNat(whCounter);
    var d := cfg.name + [';'] + digits;
    assert d[|cfg.name| + 1..] == digits;
    d
  }

  const CONTENT_LENGTH: seq<char> := "Content-Length: "

  /** The request line and the headers before `Content-Length`. */
  function RequestFront(cfg: Config): seq<char> {
    "POST " + cfg.uri + cfg.name + " HTTP/1.1\n"
    + "Host: " + cfg.host + "\n"
    + "Content-Type: text/plain\n"
  }

  /**
   The request `send()` writes: request line, headers, the `Content-Length`
   of the body, an empty line, the body and one newline.
   */
  function BuildRequest(cfg: Config, data: seq<char>): seq<char> {
    RequestFront(cfg) + CONTENT_LENGTH + FromNat(|data|) + "\n\n" + data + "\n"
  }

  /**
   The wait loop of `send()`: poll `available()` while it reports nothing,
   setting the result to success on every empty poll; after more than
   `WAITING_CYCLE` polls stop the client and report a send error. With
   k = the number of empty polls before the first poll with data (counted up
   to the bound), the loop stops at that poll, or gives up when k reaches the
   bound.
   */
  function SendWait(s: State, c: Client): (r: (State, Client))
    requires s.waitingCount <= WAITING_CYCLE
    decreases WAITING_CYCLE - s.waitingCount
    ensures SameOracle(c, r.1)
    ensures r.1.bytesRead == c.bytesRead && r.1.written == c.written && r.1.connects == c.connects
    ensures SameCounters(r.0, s) && r.0.response == s.response && r.0.responseI == s.responseI
    ensures var budget := WAITING_CYCLE + 1 - s.waitingCount;
            var k := SilenceRun(c.answers, c.polls, budget);
            && r.0.waitingCount == s.waitingCount + k
            && (k == budget ==>
                  && r.0.result == ErrorSend && r.1.polls == c.polls + budget
                  && !r.1.connected && r.1.stops == c.stops + 1)
            && (k < budget ==>
                  && r.0.result == (if k == 0 then s.result else Success)
                  && r.1.polls == c.polls + k + 1
                  && r.1.connected == c.connected && r.1.stops == c.stops)
  {
    var c1 := c.(polls := c.polls + 1);
    if NextAnswer(c) != 0 then (s, c1)
    else
      var s1 := s.(result := Success, waitingCount := s.waitingCount + 1);
      if s1.waitingCount > WAITING_CYCLE then (s1.(result := ErrorSend), Stop(c1))
      else SendWait(s1, c1)
  }

  /**
   `send()`: serialise the counter, write the request, wait for the first
   byte of an answer, and zero the counter if the result is then success.
   */
  function Send(cfg: Config, s: State, c: Client): (r: (State, Client))
    ensures SameOracle(c, r.1) && r.1.bytesRead == c.bytesRead && r.1.connects == c.connects
    ensures r.0.data == BuildData(cfg, s.whCounter)
    ensures r.1.written == c.written + [BuildRequest(cfg, r.0.data)]
    ensures r.0.whCounter == (if r.0.result == Success then 0 else s.whCounter)
    ensures r.0.result != ErrorReceive
    ensures r.0.cycleCounter == 0 && r.0.responseI == 0 && r.0.response == ResetRequest(s).response
    ensures var k := SilenceRun(c.answers, c.polls, WAITING_CYCLE + 1);
            && (k == WAITING_CYCLE + 1 ==>
                  && r.0.result == ErrorSend && r.1.polls == c.polls + WAITING_CYCLE + 1
                  && !r.1.connected && r.1.stops == c.stops + 1)
            && (k <= WAITING_CYCLE ==>
                  && r.0.result == (if k == 0 then None else Success)
                  && r.1.polls == c.polls + k + 1
                  && r.1.connected == c.connected && r.1.stops == c.stops)
  {
    var s1 := ResetRequest(s);
    var data := BuildData(cfg, s1.whCounter);
    var request := BuildRequest(cfg, data);
    var c1 := Write(c, request);
    var (s2, c2) := SendWait(s1.(data := data, request := request), c1);
    if s2.result == Success then (s2.(whCounter := 0), c2) else (s2, c2)
  }

  /** The read loop run on a reset request: how far it reads, and where the index ends. */
  lemma ReceiveLoopFromReset(s: State, c: Client)
    ensures ResetRequest(s).responseI == ResetRequest(s).waitingCount == 0
    ensures var r := ReceiveLoop(ResetRequest(s), c);
            var n := DataRun(c.answers, c.polls, RESPONSE_SIZE);
            var stored := if n == RESPONSE_SIZE then RESPONSE_SIZE - 1 else n;
            && r.1.bytesRead == c.bytesRead + stored
            && r.1.polls == c.polls + (if n == RESPONSE_SIZE then RESPONSE_SIZE else n + 1)
            && r.0.responseI == r.0.waitingCount == stored
  {
  }

  /**
   The read loop of `receive()` AS WRITTEN: while `available()` reports data,
   store the next byte at `_response[_responseI++]`; after more than
   `WAITING_CYCLE` bytes stop the client and report a receive error. The array
   has only `RESPONSE_SIZE` slots, so the loop can store past its end; such a
   store is dropped here and the third component reports that it happened.
   With n = the number of polls with data in a row (counted up to the bound),
   the loop reads n bytes, and gives up when n reaches the bound.
   */
  function ReceiveLoopAsWritten(s: State, c: Client): (r: (State, Client, bool))
    requires s.responseI == s.waitingCount <= WAITING_CYCLE
    decreases WAITING_CYCLE - s.waitingCount
    ensures SameOracle(c, r.1) && r.1.written == c.written && r.1.connects == c.connects
    ensures var budget := WAITING_CYCLE + 1 - s.waitingCount;
            var n := DataRun(c.answers, c.polls, budget);
            && r.1.bytesRead == c.bytesRead + n
            && SameCounters(r.0, s)
            && r.0.responseI == r.0.waitingCount == s.responseI + n
            && (n == budget ==>
                  && r.0.result == ErrorReceive && r.1.polls == c.polls + budget
                  && !r.1.connected && r.1.stops == c.stops + 1)
            && (n < budget ==>
                  && r.0.result == s.result && r.1.polls == c.polls + n + 1
                  && r.1.connected == c.connected && r.1.stops == c.stops)
            && (r.2 <==> n > 0 && s.responseI + n > RESPONSE_SIZE)
  {
    var c1 := c.(polls := c.polls + 1);
    if NextAnswer(c) == 0 then (s, c1, false)
    else
      var byte := ByteAt(c1.stream, c1.bytesRead);
      var c2 := c1.(bytesRead := c1.bytesRead + 1);
      var inBounds := s.responseI < RESPONSE_SIZE;
      var s1 := s.(response := if inBounds then s.response[s.responseI := byte] else s.response,
                   responseI := s.responseI + 1,
                   waitingCount := s.waitingCount + 1);
      if s1.waitingCount > WAITING_CYCLE then (s1.(result := ErrorReceive), Stop(c2), !inBounds)
      else
        var r := ReceiveLoopAsWritten(s1, c2);
        (r.0, r.1, r.2 || !inBounds)
  }

  /**
   The read loop of `receive()` with the store bounded by the array: a byte
   that arrives when only the slot of the terminating NUL is left is not read;
   the client is stopped and the result is a receive error instead. Because
   that bound (309 bytes) is below `WAITING_CYCLE`, it is always met first.
   With n = the number of polls with data in a row (counted up to the room
   left plus one), the loop reads and stores min(n, room) bytes and gives up
   when a byte is offered with no room left.
   */
  function ReceiveLoop(s: State, c: Client): (r: (State, Client))
    requires s.responseI == s.waitingCount < RESPONSE_SIZE
    decreases RESPONSE_SIZE - s.responseI
    ensures SameOracle(c, r.1) && r.1.written == c.written && r.1.connects == c.connects
    ensures var room := RESPONSE_SIZE - 1 - s.responseI;
            var n := DataRun(c.answers, c.polls, room + 1);
            var stored := if n == room + 1 then room else n;
            && r.1.bytesRead == c.bytesRead + stored
            && SameCounters(r.0, s)
            && r.0.responseI == r.0.waitingCount == s.responseI + stored
            && Overwritten(r.0.response, s.response, s.responseI, NextBytes(c, stored))
            && (n == room + 1 ==>
                  && r.0.result == ErrorReceive && r.1.polls == c.polls + room + 1
                  && !r.1.connected && r.1.stops == c.stops + 1)
            && (n <= room ==>
                  && r.0.result == s.result && r.1.polls == c.polls + n + 1
                  && r.1.connected == c.connected && r.1.stops == c.stops)
  {
    var c1 := c.(polls := c.polls + 1);
    if NextAnswer(c) == 0 then (s, c1)
    else if s.responseI == RESPONSE_SIZE - 1 then (s.(result := ErrorReceive), Stop(c1))
    else
      var byte := ByteAt(c1.stream, c1.bytesRead);
      var c2 := c1.(bytesRead := c1.bytesRead + 1);
      var s1 := s.(response := s.response[s.responseI := byte],
                   responseI := s.responseI + 1,
                   waitingCount := s.waitingCount + 1);
      var r := ReceiveLoop(s1, c2);
      var stored := r.1.bytesRead - c2.bytesRead;
      NextBytesStep(c1, c2, stored);
      OverwrittenStep(r.0.response, s.response, s.responseI, byte, NextBytes(c2, stored));
      r
  }

  /**
   `receive()`: unless the result is already an error, start over with
   `resetRequest()` (which drops the result of `send()`), read the answer, and
   make the result success when the answer's C string holds `HTTP/1.1 200`.
   */
  function Receive(s: State, c: Client): (r: (State, Client))
    ensures !ResultIsNotAnError(s.result) ==> r == (s, c)
    ensures ResultIsNotAnError(s.result) ==>
              var n := DataRun(c.answers, c.polls, RESPONSE_SIZE);
              var stored := if n == RESPONSE_SIZE then RESPONSE_SIZE - 1 else n;
              && SameOracle(c, r.1) && r.1.written == c.written && r.1.connects == c.connects
              && r.1.bytesRead == c.bytesRead + stored
              && r.1.polls == c.polls + (if n == RESPONSE_SIZE then RESPONSE_SIZE else n + 1)
              && r.0.cycleCounter == 0 && r.0.whCounter == s.whCounter
              && r.0.responseI == r.0.waitingCount == stored
              && r.0.request == [] && r.0.data == []
              && Overwritten(r.0.response, ResetRequest(s).response, 0, NextBytes(c, stored))
              && (r.0.result == ErrorReceive <==> n == RESPONSE_SIZE)
              && (r.0.result == ErrorReceive ==> !r.1.connected && r.1.stops == c.stops + 1)
              && (r.0.result != ErrorReceive ==> r.1.connected == c.connected && r.1.stops == c.stops)
              && (r.0.result == Success <==>
                    n < RESPONSE_SIZE && Contains(CStr(r.0.response), SUCCESS_MARKER))
              && r.0.result != ErrorSend
  {
    if !ResultIsNotAnError(s.result) then (s, c)
    else
      var s1 := ResetRequest(s);
      ReceiveLoopFromReset(s, c);
      var (s2, c2) := ReceiveLoop(s1, c);
      if ResultIsNotAnError(s2.result) && Strstr(CStr(s2.response), SUCCESS_MARKER).FoundAt?
      then (s2.(result := Success), c2)
      else (s2, c2)
  }

  /** `connect()` to the collector's host and port. */
  function ConnectClient(c: Client): (r: (bool, Client))
    ensures r.0 == NextConnect(c) && r.1.connected == r.0
    ensures r.1 == c.(connected := r.0, connects := c.connects + 1)
  {
    Connect(c)
  }

  /**
   `reconnect()`: a connected client is left alone and the answer is true;
   otherwise the client is stopped and connected afresh.
   */
  function Reconnect(c: Client): (r: (bool, Client))
    ensures c.connected ==> r == (true, c)
    ensures !c.connected ==>
              && r.0 == NextConnect(c) && r.1.connected == r.0
              && r.1 == c.(connected := r.0, connects := c.connects + 1, stops := c.stops + 1)
  {
    if !c.connected then ConnectClient(Stop(c)) else (true, c)
  }

  /**
   `sync()`: count one more on `_whCounter`, then, once `CYCLE` cycles have
   been added, run one attempt: reset, reconnect, and when connected send and
   receive. Answers the result as a `uint8_t`.
   */
  function Sync(cfg: Config, s: State, c: Client): (r: Step)
    ensures r.ret == ResultByte(r.syncer.result)
    ensures SameOracle(c, r.client)
    ensures !EnableToSync(s) ==>
              r.syncer == s.(whCounter := Inc8(s.whCounter)) && r.client == c
    ensures EnableToSync(s) ==> r.syncer.cycleCounter == 0
    ensures EnableToSync(s) && !Reconnect(c).0 ==>
              && r.syncer.result == None && r.ret == 0
              && r.syncer.whCounter == Inc8(s.whCounter)
              && r.client == Reconnect(c).1
  {
    var s1 := s.(whCounter := Inc8(s.whCounter));
    if !EnableToSync(s1) then Step(ResultByte(s1.result), s1, c)
    else
      var s2 := ResetRequest(s1);
      var (connected, c2) := Reconnect(c);
      if !connected then Step(ResultByte(s2.result), s2, c2)
      else
        var (s3, c3) := Send(cfg, s2, c2);
        var (s4, c4) := Receive(s3, c3);
        Step(ResultByte(s4.result), s4, c4)
  }
}

=== FILE: syncer_properties.dfy ===
/**
 Properties of the `Syncer` model that relate several calls, or that pin down
 behaviours of the code a reader would not expect.
 */
module SyncerProperties {
  import opened CStrings
  import opened Decimal
  import opened WiFi
  import opened Syncer

  /** The four result codes are strictly ordered; only NONE and SUCCESS pass `>= RESULT_NONE`. */
  lemma ResultCodesOrdered()
    ensures ErrorReceive.Code() < ErrorSend.Code() < None.Code() < Success.Code()
    ensures ErrorReceive.Code() == -2 && ErrorSend.Code() == -1
    ensures None.Code() == 0 && Success.Code() == 1
    ensures !ResultIsNotAnError(ErrorReceive) && !ResultIsNotAnError(ErrorSend)
    ensures ResultByte(ErrorReceive) == 254 && ResultByte(ErrorSend) == 255
    ensures ResultByte(None) == 0 && ResultByte(Success) == 1
  {
  }

  /** `addCycle()` called n times. */
  function AddCycles(s: State, n: nat): State
    decreases n
  {
    if n == 0 then s else AddCycles(AddCycle(s), n - 1)
  }

  /** Below the wrap, n calls to `addCycle()` add n to the counter and change nothing else. */
  lemma {:induction false} AddCyclesCount(s: State, n: nat)
    requires s.cycleCounter + n < 65536
    ensures AddCycles(s, n).cycleCounter == s.cycleCounter + n
    ensures AddCycles(s, n) == s.(cycleCounter := s.cycleCounter + n)
    decreases n
  {
    if n > 0 {
      AddCyclesCount(AddCycle(s), n - 1);
    }
  }

  /** After a reset, a sync is enabled exactly once `CYCLE` cycles have been added. */
  lemma AddCyclesEnable(s: State, n: nat)
    requires s.cycleCounter == 0 && n < 65536
    ensures EnableToSync(AddCycles(s, n)) <==> n >= CYCLE
  {
    AddCyclesCount(s, n);
  }

  /**
   `sync()` resets before it connects and `send()` resets again; the second
   reset changes nothing.
   */
  lemma ResetRequestIdempotent(s: State)
    ensures ResetRequest(ResetRequest(s)) == ResetRequest(s)
  {
  }

  /** After `reset()`, the counter counts the increments since, modulo 256. */
  lemma ResetThenCount(s: State, n: nat)
    ensures IncreaseWhCounterTimes(Reset(s).1, n).whCounter == n % 256
  {
    IncreaseWhCounterWraps(Reset(s).1, n);
  }

  /** `_whCounter++` applied n times. */
  function IncreaseWhCounterTimes(s: State, n: nat): State
    decreases n
  {
    if n == 0 then s else IncreaseWhCounterTimes(IncreaseWhCounter(s), n - 1)
  }

  /** n increments of the 8-bit counter add n modulo 256 and change nothing else. */
  lemma {:induction false} IncreaseWhCounterWraps(s: State, n: nat)
    ensures IncreaseWhCounterTimes(s, n).whCounter == (s.whCounter + n) % 256
    ensures IncreaseWhCounterTimes(s, n) == s.(whCounter := (s.whCounter + n) % 256)
    decreases n
  {
    if n > 0 {
      IncreaseWhCounterWraps(IncreaseWhCounter(s), n - 1);
    }
  }

  /** 256 increments bring the counter back where it started. */
  lemma WhCounterFullTurn(s: State)
    ensures IncreaseWhCounterTimes(s, 256) == s
  {
    IncreaseWhCounterWraps(s, 256);
  }

  /** Where the pieces of a request sit, whatever the request line and headers hold. */
  lemma RequestLayout(req: seq<char>, front: seq<char>, digits: seq<char>, data: seq<char>)
    requires req == front + CONTENT_LENGTH + digits + "\n\n" + data + "\n"
    ensures var body := |req| - |data| - 1;
            && body == |front| + |CONTENT_LENGTH| + |digits| + 2
            && req[body..] == data + "\n"
            && req[body - 2..body] == "\n\n"
            && req[body - 2 - |digits| - |CONTENT_LENGTH|..body - 2 - |digits|] == CONTENT_LENGTH
            && req[body - 2 - |digits|..body - 2] == digits
  {
    var line := CONTENT_LENGTH + digits;
    var tail := "\n\n" + data + "\n";
    assert req == front + line + tail;
    var body := |req| - |data| - 1;
    assert req[|front| + |line|..] == tail;
    assert req[body..] == data + "\n";
    assert req[body - 2..body] == tail[..2];
    assert req[|front|..|front| + |line|] == line;
  }

  /** The digits after `Content-Length: ` read back as the body's length, whatever comes first. */
  lemma FramedContentLength(req: seq<char>, front: seq<char>, data: seq<char>)
    requires req == front + CONTENT_LENGTH + FromNat(|data|) + "\n\n" + data + "\n"
    ensures var body := |req| - |data| - 1;
            var digits := FromNat(|data|);
            && body >= |CONTENT_LENGTH| + |digits| + 2
            && req[body..] == data + "\n"
            && req[body - 2..body] == "\n\n"
            && req[body - 2 - |digits| - |CONTENT_LENGTH|..body - 2 - |digits|] == CONTENT_LENGTH
            && ToNat(req[body - 2 - |digits|..body - 2]) == |data|
  {
    var digits := FromNat(|data|);
    RequestLayout(req, front, digits, data);
    ToNatFromNat(|data|);
  }

  /**
   The `Content-Length` header of the request, the last line before the empty
   one, holds in decimal the number of body bytes; the body follows the empty
   line and is itself followed by one newline, which the header does not count.
   */
  lemma RequestContentLength(cfg: Config, data: seq<char>)
    ensures var req := BuildRequest(cfg, data);
            var body := |req| - |data| - 1;
            var digits := FromNat(|data|);
            && body >= |CONTENT_LENGTH| + |digits| + 2
            && req[body..] == data + "\n"
            && req[body - 2..body] == "\n\n"
            && req[body - 2 - |digits| - |CONTENT_LENGTH|..body - 2 - |digits|] == CONTENT_LENGTH
            && ToNat(req[body - 2 - |digits|..body - 2]) == |data|
  {
    FramedContentLength(BuildRequest(cfg, data), RequestFront(cfg), data);
  }

  /**
   The wait of `send()` in terms of the polls: if none of the next
   `WAITING_CYCLE + 1` polls reports data the client is stopped and the result
   is a send error; otherwise the result is success exactly when the first
   poll was empty (the answer had not yet arrived) and stays NONE when the
   answer was already there. The counter is zeroed in the first case only, so
   it is dropped before any answer has been read.
   */
  lemma SendOutcome(cfg: Config, s: State, c: Client)
    ensures var r := Send(cfg, s, c);
            && (Quiet(c, WAITING_CYCLE + 1) ==>
                  && r.0.result == ErrorSend && r.0.whCounter == s.whCounter
                  && r.1.polls == c.polls + WAITING_CYCLE + 1
                  && !r.1.connected && r.1.stops == c.stops + 1)
            && (!Quiet(c, WAITING_CYCLE + 1) ==>
                  && (r.0.result == Success <==> NextAnswer(c) == 0)
                  && (r.0.result == None <==> NextAnswer(c) != 0)
                  && r.0.whCounter == (if NextAnswer(c) == 0 then 0 else s.whCounter)
                  && r.1.connected == c.connected && r.1.stops == c.stops)
  {
    SilenceRunIsQuietPrefix(c, WAITING_CYCLE + 1);
  }

  /**
   The read of `receive()` in terms of the polls: it reads the longest run of
   polls with data, up to one less than the buffer, and fails exactly when a
   further byte is offered with no room left. Otherwise the result is success exactly when the
   C string in the buffer holds `HTTP/1.1 200`.
   */
  lemma ReceiveOutcome(s: State, c: Client)
    requires ResultIsNotAnError(s.result)
    ensures var r := Receive(s, c);
            var n := r.1.bytesRead - c.bytesRead;
            && 0 <= n < RESPONSE_SIZE && Busy(c, n)
            && (r.0.result == ErrorReceive <==> Busy(c, RESPONSE_SIZE))
            && (!Busy(c, RESPONSE_SIZE) ==> AnswerAt(c.answers, c.polls + n) == 0)
            && (r.0.result == Success <==>
                  !Busy(c, RESPONSE_SIZE) && Contains(CStr(r.0.response), SUCCESS_MARKER))
  {
    DataRunIsBusyPrefix(c, RESPONSE_SIZE);
    var r := Receive(s, c);
    var k := DataRun(c.answers, c.polls, RESPONSE_SIZE);
    var n := r.1.bytesRead - c.bytesRead;
    if k == RESPONSE_SIZE {
      assert n == RESPONSE_SIZE - 1;
      BusyPrefix(c, RESPONSE_SIZE, RESPONSE_SIZE - 1);
      assert r.0.result == ErrorReceive && Busy(c, RESPONSE_SIZE);
    } else {
      assert n == k && !Busy(c, RESPONSE_SIZE);
      assert r.0.result != ErrorReceive && AnswerAt(c.answers, c.polls + n) == 0;
    }
  }

  /** A prefix of a busy run is busy. */
  lemma BusyPrefix(c: Client, n: nat, m: nat)
    requires Busy(c, n) && m <= n
    ensures Busy(c, m)
  {
  }

  /**
   On a buffer with no stale characters, whose answer holds no NUL, the C string
   `receive()` looks at is exactly the answer, so success means the answer
   itself contains `HTTP/1.1 200`.
   */
  lemma ReceiveCleanBuffer(s: State, c: Client)
    requires ResultIsNotAnError(s.result) && Clean(s.response)
    requires NUL !in NextBytes(c, DataRun(c.answers, c.polls, RESPONSE_SIZE - 1))
    ensures var r := Receive(s, c);
            var n := r.1.bytesRead - c.bytesRead;
            && CStr(r.0.response) == NextBytes(c, n)
            && (r.0.result == Success <==>
                  !Busy(c, RESPONSE_SIZE) && Contains(NextBytes(c, n), SUCCESS_MARKER))
  {
    ReceiveOutcome(s, c);
    var r := Receive(s, c);
    DataRunCapped(c.answers, c.polls, RESPONSE_SIZE, RESPONSE_SIZE - 1);
    var n := r.1.bytesRead - c.bytesRead;
    assert n == DataRun(c.answers, c.polls, RESPONSE_SIZE - 1);
    assert AllNul(ResetRequest(s).response);
    OverwriteClean(r.0.response, ResetRequest(s).response, NextBytes(c, n));
  }

  /**
   Characters hidden behind a NUL survive `resetRequest()`, so a later answer
   that fills the buffer up to them joins them into its C string: a stale
   `HTTP/1.1 200` at offset k makes any k-byte answer without NUL a success,
   whatever the answer says.
   */
  lemma StaleMarkerCounts(s: State, c: Client, k: nat)
    requires ResultIsNotAnError(s.result)
    requires k + |SUCCESS_MARKER| < RESPONSE_SIZE
    requires ResetRequest(s).response[k..k + |SUCCESS_MARKER|] == SUCCESS_MARKER
    requires DataRun(c.answers, c.polls, RESPONSE_SIZE) == k
    requires NUL !in NextBytes(c, k)
    ensures Receive(s, c).0.result == Success
  {
    var r := Receive(s, c);
    MarkerHasNoNul();
    OverwriteJoins(r.0.response, ResetRequest(s).response, NextBytes(c, k), SUCCESS_MARKER);
  }

  /** The status line holds no NUL. */
  lemma MarkerHasNoNul()
    ensures NUL !in SUCCESS_MARKER
  {
  }

  /** A concrete buffer that hides the status line behind one NUL, as a prior answer can leave it. */
  lemma StaleMarkerExample()
    ensures var b := ['x', NUL] + SUCCESS_MARKER + seq(RESPONSE_SIZE - 14, _ => NUL);
            && |b| == RESPONSE_SIZE
            && CStr(b) == ['x']
            && ClearToStrlen(b)[2..14] == SUCCESS_MARKER
            && !Contains(CStr(b), SUCCESS_MARKER)
  {
    var b := ['x', NUL] + SUCCESS_MARKER + seq(RESPONSE_SIZE - 14, _ => NUL);
    CStrLenOfTerminated(b, ['x']);
    assert CStr(b) == ['x'];
    assert ClearToStrlen(b)[2..14] == b[2..14] == SUCCESS_MARKER;
  }

  /**
   The receive loop as written stores past the end of the 310-byte buffer
   exactly when, from an empty buffer, the next 311 polls all report data.
   */
  lemma ReceiveLoopAsWrittenOverruns(s: State, c: Client)
    requires s.responseI == 0 && s.waitingCount == 0
    ensures ReceiveLoopAsWritten(s, c).2 <==> Busy(c, RESPONSE_SIZE + 1)
  {
    DataRunIsBusyPrefix(c, WAITING_CYCLE + 1);
    var n := DataRun(c.answers, c.polls, WAITING_CYCLE + 1);
    if n > RESPONSE_SIZE {
      BusyPrefix(c, n, RESPONSE_SIZE + 1);
    }
  }

  /** The bounded receive loop never touches the last slot, which keeps the terminating NUL. */
  lemma ReceiveLoopKeepsTerminator(s: State, c: Client)
    requires s.responseI == s.waitingCount < RESPONSE_SIZE
    requires TerminatorKept(s.response)
    ensures TerminatorKept(ReceiveLoop(s, c).0.response)
    ensures ReceiveLoop(s, c).0.responseI < RESPONSE_SIZE
  {
  }

  /**
   A sync attempt whose send gets no answer within the wait: the request was
   written, the client is stopped, nothing is read, the counter (already
   incremented by this call) is kept and 255 is returned.
   */
  lemma SyncSendTimeout(cfg: Config, s: State, c: Client)
    requires EnableToSync(s) && Reconnect(c).0
    requires Quiet(Reconnect(c).1, WAITING_CYCLE + 1)
    ensures var r := Sync(cfg, s, c);
            var c1 := Reconnect(c).1;
            && r.syncer.result == ErrorSend && r.ret == 255
            && r.syncer.whCounter == Inc8(s.whCounter)
            && r.client.written == c1.written + [BuildRequest(cfg, BuildData(cfg, Inc8(s.whCounter)))]
            && !r.client.connected && r.client.bytesRead == c1.bytesRead
  {
    var s2 := ResetRequest(s.(whCounter := Inc8(s.whCounter)));
    var c1 := Reconnect(c).1;
    SendOutcome(cfg, s2, c1);
  }

  /**
   A sync attempt whose send sees an answer: the counter is zeroed exactly
   when the first poll was empty, whatever the answer turns out to be; the
   result is decided by the receive alone, and is success exactly when no
   overflow occurred and the buffer's C string holds `HTTP/1.1 200`.
   */
  lemma SyncAfterSend(cfg: Config, s: State, c: Client)
    requires EnableToSync(s) && Reconnect(c).0
    requires !Quiet(Reconnect(c).1, WAITING_CYCLE + 1)
    ensures var r := Sync(cfg, s, c);
            var c1 := Reconnect(c).1;
            && r.client.written == c1.written + [BuildRequest(cfg, BuildData(cfg, Inc8(s.whCounter)))]
            && r.syncer.whCounter == (if NextAnswer(c1) == 0 then 0 else Inc8(s.whCounter))
            && r.syncer.result != ErrorSend
            && (r.syncer.result == ErrorReceive ==> !r.client.connected)
            && (r.syncer.result == Success <==>
                  r.syncer.result != ErrorReceive && Contains(CStr(r.syncer.response), SUCCESS_MARKER))
  {
    var s2 := ResetRequest(s.(whCounter := Inc8(s.whCounter)));
    var c1 := Reconnect(c).1;
    SendOutcome(cfg, s2, c1);
  }

  /**
   Where the client stands after such a sync attempt, with `p` the poll just
   past the one with data that ended the wait, and `n` the run of polls with
   data from there, capped at the buffer: past that run and the poll that
   ended it, if any. Only the bytes the receive stored were read.
   */
  lemma SyncAfterSendReads(cfg: Config, s: State, c: Client, p: nat, n: nat)
    requires EnableToSync(s) && Reconnect(c).0
    requires !Quiet(Reconnect(c).1, WAITING_CYCLE + 1)
    requires p == Reconnect(c).1.polls + SilenceRun(Reconnect(c).1.answers, Reconnect(c).1.polls, WAITING_CYCLE + 1) + 1
    requires n == DataRun(Reconnect(c).1.answers, p, RESPONSE_SIZE)
    ensures Sync(cfg, s, c).client.polls == p + (if n == RESPONSE_SIZE then RESPONSE_SIZE else n + 1)
    ensures Sync(cfg, s, c).client.bytesRead == Reconnect(c).1.bytesRead + (if n == RESPONSE_SIZE then RESPONSE_SIZE - 1 else n)
  {
    SilenceRunIsQuietPrefix(Reconnect(c).1, WAITING_CYCLE + 1);
    SyncAnsweredReads(cfg, s, c, p, n);
  }

  /** The same, given that the wait of the send ends on a poll with data. */
  lemma SyncAnsweredReads(cfg: Config, s: State, c: Client, p: nat, n: nat)
    requires EnableToSync(s) && Reconnect(c).0
    requires SilenceRun(Reconnect(c).1.answers, Reconnect(c).1.polls, WAITING_CYCLE + 1) <= WAITING_CYCLE
    requires p == Reconnect(c).1.polls + SilenceRun(Reconnect(c).1.answers, Reconnect(c).1.polls, WAITING_CYCLE + 1) + 1
    requires n == DataRun(Reconnect(c).1.answers, p, RESPONSE_SIZE)
    ensures Sync(cfg, s, c).client.polls == p + (if n == RESPONSE_SIZE then RESPONSE_SIZE else n + 1)
    ensures Sync(cfg, s, c).client.bytesRead == Reconnect(c).1.bytesRead + (if n == RESPONSE_SIZE then RESPONSE_SIZE - 1 else n)
  {
    SendThenReceiveReads(cfg, ResetRequest(s.(whCounter := Inc8(s.whCounter))), Reconnect(c).1, p, n);
    SyncSendsThenReceives(cfg, s, c);
  }

  /** An enabled sync whose connect succeeds is a send followed by a receive. */
  lemma SyncSendsThenReceives(cfg: Config, s: State, c: Client)
    requires EnableToSync(s) && Reconnect(c).0
    ensures var sent := Send(cfg, ResetRequest(s.(whCounter := Inc8(s.whCounter))), Reconnect(c).1);
            Sync(cfg, s, c).client == Receive(sent.0, sent.1).1
  {
  }

  /**
   A send whose wait ends on a poll with data, then a receive, with `p` the
   poll just past the one that ended the wait and `n` the run of polls with
   data from there, capped at the buffer: the client ends past that run and
   the poll that ended it, if any; only the bytes the receive stored were read.
   */
  lemma SendThenReceiveReads(cfg: Config, s: State, c: Client, p: nat, n: nat)
    requires SilenceRun(c.answers, c.polls, WAITING_CYCLE + 1) <= WAITING_CYCLE
    requires p == c.polls + SilenceRun(c.answers, c.polls, WAITING_CYCLE + 1) + 1
    requires n == DataRun(c.answers, p, RESPONSE_SIZE)
    ensures Receive(Send(cfg, s, c).0, Send(cfg, s, c).1).1.polls == p + (if n == RESPONSE_SIZE then RESPONSE_SIZE else n + 1)
    ensures Receive(Send(cfg, s, c).0, Send(cfg, s, c).1).1.bytesRead == c.bytesRead + (if n == RESPONSE_SIZE then RESPONSE_SIZE - 1 else n)
  {
    var sent := Send(cfg, s, c);
    SendAnswered(cfg, s, c);
    assert DataRun(sent.1.answers, sent.1.polls, RESPONSE_SIZE) == n;
    ReceiveAfterSend(cfg, s, c);
  }

  /** A send whose wait ends on a poll with data stops just past that poll, with nothing read. */
  lemma SendAnswered(cfg: Config, s: State, c: Client)
    requires SilenceRun(c.answers, c.polls, WAITING_CYCLE + 1) <= WAITING_CYCLE
    ensures Send(cfg, s, c).1.polls == c.polls + SilenceRun(c.answers, c.polls, WAITING_CYCLE + 1) + 1
    ensures Send(cfg, s, c).1.bytesRead == c.bytesRead && Send(cfg, s, c).1.answers == c.answers
  {
  }

  /** The receive after such a send reads on from where the send stopped. */
  lemma ReceiveAfterSend(cfg: Config, s: State, c: Client)
    requires SilenceRun(c.answers, c.polls, WAITING_CYCLE + 1) <= WAITING_CYCLE
    ensures var sent := Send(cfg, s, c);
            var n := DataRun(sent.1.answers, sent.1.polls, RESPONSE_SIZE);
            && Receive(sent.0, sent.1).1.polls == sent.1.polls + (if n == RESPONSE_SIZE then RESPONSE_SIZE else n + 1)
            && Receive(sent.0, sent.1).1.bytesRead == sent.1.bytesRead + (if n == RESPONSE_SIZE then RESPONSE_SIZE - 1 else n)
  {
    var sent := Send(cfg, s, c);
    assert ResultIsNotAnError(sent.0.result);
  }
}

=== FILE: wifi.dfy ===
/**
 The `WiFiClient` the syncer talks through, as an oracle. Its answers are fixed
 in advance: the i-th call to `available()`, `read()` and `connect()` returns
 the i-th entry of the matching trace, and the client counts the calls made so
 far. What is written and how often the connection is stopped are recorded.
 No networking is modelled.
 */
module WiFi {

  /** What `read()` returns, cast to `char`, when no byte is left: `(char) -1`. */
  const NO_BYTE: char := '\U{FF}'

  datatype Client = Client(
    connected: bool,              // what connected() answers
    answers: seq<nat>,            // successive available() answers
    stream: seq<char>,            // successive read() bytes
    connectAnswers: seq<bool>,    // successive connect() outcomes
    written: seq<seq<char>>,      // every write(), in order
    polls: nat,                   // available() calls so far
    bytesRead: nat,               // read() calls so far
    connects: nat,                // connect() calls so far
    stops: nat                    // stop() calls so far
  )

  /** The answer of the i-th `available()` call; no data once the trace ends. */
  function AnswerAt(answers: seq<nat>, i: nat): nat {
    if i < |answers| then answers[i] else 0
  }

  /** The byte of the i-th `read()` call; the call itself advances `bytesRead`. */
  function ByteAt(stream: seq<char>, i: nat): char {
    if i < |stream| then stream[i] else NO_BYTE
  }

  /** The outcome of the i-th `connect()` call; failure once the trace ends. */
  function ConnectAt(connectAnswers: seq<bool>, i: nat): bool {
    if i < |connectAnswers| then connectAnswers[i] else false
  }

  /** What the next call to `available()` answers; the call itself advances `polls`. */
  function NextAnswer(c: Client): nat {
    AnswerAt(c.answers, c.polls)
  }

  /** What the next call to `connect()` reports. */
  function NextConnect(c: Client): bool {
    ConnectAt(c.connectAnswers, c.connects)
  }

  /** The next n calls to `available()` all report no data. */
  predicate Quiet(c: Client, n: nat) {
    forall i :: c.polls <= i < c.polls + n ==> AnswerAt(c.answers, i) == 0
  }

  /** The next n calls to `available()` all report data. */
  predicate Busy(c: Client, n: nat) {
    forall i :: c.polls <= i < c.polls + n ==> AnswerAt(c.answers, i) != 0
  }

  /** The next n bytes `read()` will deliver. */
  function NextBytes(c: Client, n: nat): (b: seq<char>)
    ensures |b| == n
  {
    seq(n, k requires 0 <= k < n => ByteAt(c.stream, c.bytesRead + k))
  }

  /** The same client, with only its call counters and logs possibly advanced. */
  predicate SameOracle(c: Client, c2: Client) {
    && c2.answers == c.answers
    && c2.stream == c.stream
    && c2.connectAnswers == c.connectAnswers
  }

  /** `write()`: the text is recorded. */
  function Write(c: Client, text: seq<char>): Client {
    c.(written := c.written + [text])
  }

  /** `stop()`: the connection is closed. */
  function Stop(c: Client): Client {
    c.(connected := false, stops := c.stops + 1)
  }

  /** `connect()`: the next outcome of the trace becomes the connection state. */
  function Connect(c: Client): (bool, Client) {
    var ok := NextConnect(c);
    (ok, c.(connected := ok, connects := c.connects + 1))
  }

  /** How many of the at most `limit` polls from the `from`-th on report data before one does not. */
  function DataRun(answers: seq<nat>, from: nat, limit: nat): (k: nat)
    ensures k <= limit
    decreases limit
  {
    if limit == 0 || AnswerAt(answers, from) == 0 then 0
    else 1 + DataRun(answers, from + 1, limit - 1)
  }

  /** How many of the at most `limit` polls from the `from`-th on report nothing before one does. */
  function SilenceRun(answers: seq<nat>, from: nat, limit: nat): (k: nat)
    ensures k <= limit
    decreases limit
  {
    if limit == 0 || AnswerAt(answers, from) != 0 then 0
    else 1 + SilenceRun(answers, from + 1, limit - 1)
  }

  /**
   The run of polls with data is the longest prefix of busy polls: all its
   polls report data, the poll after it (if within the limit) does not, and it
   spans the whole limit exactly when every poll in the limit reports data.
   */
  lemma {:induction false} DataRunIsBusyPrefix(c: Client, limit: nat)
    ensures var k := DataRun(c.answers, c.polls, limit);
            && Busy(c, k)
            && (k < limit ==> AnswerAt(c.answers, c.polls + k) == 0)
            && (Busy(c, limit) <==> k == limit)
    decreases limit
  {
    if limit > 0 && NextAnswer(c) != 0 {
      var c1 := c.(polls := c.polls + 1);
      DataRunIsBusyPrefix(c1, limit - 1);
      BusyStep(c, c1, limit - 1);
      BusyStep(c, c1, DataRun(c.answers, c.polls + 1, limit - 1));
    }
  }

  /** Counting a run of data up to a smaller limit caps the count at that limit. */
  lemma {:induction false} DataRunCapped(answers: seq<nat>, from: nat, limit: nat, m: nat)
    requires m <= limit
    ensures DataRun(answers, from, m) == if DataRun(answers, from, limit) < m then DataRun(answers, from, limit) else m
    decreases m
  {
    if m > 0 && AnswerAt(answers, from) != 0 {
      DataRunCapped(answers, from + 1, limit - 1, m - 1);
    }
  }

  /** The same for runs of polls without data. */
  lemma {:induction false} SilenceRunIsQuietPrefix(c: Client, limit: nat)
    ensures var k := SilenceRun(c.answers, c.polls, limit);
            && Quiet(c, k)
            && (k < limit ==> AnswerAt(c.answers, c.polls + k) != 0)
            && (Quiet(c, limit) <==> k == limit)
    decreases limit
  {
    if limit > 0 && NextAnswer(c) == 0 {
      var c1 := c.(polls := c.polls + 1);
      SilenceRunIsQuietPrefix(c1, limit - 1);
      QuietStep(c, c1, limit - 1);
      QuietStep(c, c1, SilenceRun(c.answers, c.polls + 1, limit - 1));
    }
  }

  /** Peeling the first poll off a run of empty polls. */
  lemma QuietStep(c: Client, c1: Client, n: nat)
    requires c1.answers == c.answers && c1.polls == c.polls + 1
    requires NextAnswer(c) == 0
    ensures Quiet(c, n + 1) <==> Quiet(c1, n)
  {
  }

  /** Peeling the first poll off a run of polls that report data. */
  lemma BusyStep(c: Client, c1: Client, n: nat)
    requires c1.answers == c.answers && c1.polls == c.polls + 1
    requires NextAnswer(c) != 0
    ensures Busy(c, n + 1) <==> Busy(c1, n)
  {
  }

  /** Peeling the first byte off the bytes still to be read. */
  lemma NextBytesStep(c: Client, c1: Client, n: nat)
    requires c1.stream == c.stream && c1.bytesRead == c.bytesRead + 1
    ensures NextBytes(c, n + 1) == [ByteAt(c.stream, c.bytesRead)] + NextBytes(c1, n)
  {
  }
}
